=== FILE: README.md ===
# Table scraper popup — core model

This project models the core of the browser extension's popup (`popup.js`). The popup scrapes an HTML table page after page and offers the collected rows for export. The model covers:

- **Site identity.** The popup refuses LinkedIn pages and browser-internal pages. For any other page it derives the site's name from the host name (`getHostName`) and from that the key of the site's saved configuration.
- **Configuration.** There are two delays, the minimum wait between pages (`crawlDelay`) and the maximum wait for a page to settle (`maxWait`). They start at 1000 ms and 20000 ms. For inputs whose value in milliseconds is a finite double (below about 1.8e305 seconds) both input handlers keep `0 <= crawlDelay < maxWait` and save the configuration under the site's key.
- **The crawl session** (module `Popup`, class `Session`). It covers:
  - marking the "next" control (`locateNextButton`, one round of `pollForNextButton`);
  - starting and stopping (`startScraping`, `stopScraping`);
  - the guard at the start of each cycle (`scrapeNextPage`);
  - the handler of the rows a cycle brings back. That handler updates the statistics, merges the rows, and either schedules the next cycle or ends the crawl once a cycle adds nothing.
- **The row merger** (`mergeNewData`). It appends each new row unless an equal row is already present. Rows are compared through `JSON.stringify`. For rows of string values, two rows are equal exactly when they have the same (key, value) pairs in the same order. Module `Merge` defines the merge as a fold and, independently, as a filter of the batch. It proves that the two agree, and that the merge is idempotent, keeps the old rows as a prefix, adds no duplicates and keeps batch order. The method `Session.MergeNewData` is the loop of the source, proved against the fold.
- **The CSV serialiser** (`convertToCSV`).
  - It writes a header line of column labels. A label is the header map's entry, or the raw key when there is no entry.
  - Then it writes one line per row, taking the keys of the first row in their order.
  - With the comma delimiter every field is quoted and embedded quotes are doubled. With any other delimiter fields are written as they are.
  - Module `Csv` proves a parser round trip for the comma form. It also proves a split round trip for the raw form, when no field contains the delimiter or a line break.

Rows are sequences of (key, value) pairs in the object's property-enumeration order. The page URL, the host name, the user's delay input, the content script's answers and the time a cycle took are parameters. `localStorage` writes are a `map` field of the session.

## Model

| member | source | states |
|---|---|---|
| Text.IndexOf | popup.js:49 | `indexOf`: -1 exactly when the pattern occurs nowhere, otherwise the first position where it occurs |
| Text.StartsWithIff | popup.js:455-458 | `startsWith`: the text starts with the prefix exactly when it is the prefix followed by some text |
| Text.Split | popup.js:48 | `split('.')` yields at least one piece and no piece contains the separator |
| Text.SplitFirst | popup.js:48 | the first piece of a split is the longest separator-free prefix; when a separator follows it, the remaining pieces are the split of what comes after |
| Text.SplitWithout | popup.js:48 | text without the separator splits into itself alone |
| Text.SplitAfterPiece | popup.js:48 | a separator-free label followed by the separator splits into that label, then the split of the rest |
| Text.SplitJoin | popup.js:835-838 | splitting parts joined with a one-character separator that none of them contains gives the parts back |
| Text.JoinSplit | popup.js:835-838 | joining the pieces of a split with its separator gives the text back |
| Text.JoinAvoids | popup.js:835-838 | a character that is in neither the parts nor the separator is not in the joined text |
| Text.JoinCons | popup.js:826-838 | `join` of two or more parts is the first part, the separator, then the join of the others |
| Text.ToLower | popup.js:448 | lower-casing keeps the length and leaves no upper-case letter; every other character is kept, and each upper-case letter becomes its lower-case partner |
| Text.ToLowerUnchanged | popup.js:448 | text without upper-case letters is its own lower case |
| Text.ToLowerIdempotent | popup.js:448 | lower-casing twice is the same as lower-casing once |
| Rows.Lookup | popup.js:831 | `row[key]` is missing exactly when the key is not among the row's keys, and otherwise is the value of the first pair with that key |
| Rows.KeysMembers | popup.js:818 | a key is listed exactly when some pair of the row has it |
| Rows.LookupDistinct | popup.js:831 | in a row whose keys are distinct, as in any object, looking up a pair's key gives that pair's value |
| Merge.Merged | popup.js:997-1008 | the dataset after `mergeNewData`: it never shrinks and grows by at most the batch length |
| Merge.Added | popup.js:997-1008 | the rows a merge appends (an independent reference, compared with the merge by `MergedIsAppend`): no more rows than the batch, each one from the batch and not from the old dataset |
| Merge.AddedMembers | popup.js:997-1008 | a row is appended exactly when the batch has it and the old dataset does not |
| Merge.MergedIsAppend | popup.js:997-1008 | the merge is the old dataset followed by the batch rows that are new and not repeated earlier in the batch |
| Merge.MergedKeepsPrefix | popup.js:997-1008 | existing rows are never removed or reordered: the old dataset is a prefix of the merged one |
| Merge.AppendedIff | popup.js:997-1008 | the appended part holds exactly the batch rows that were not in the old dataset |
| Merge.AddedDistinct | popup.js:999-1005 | the rows appended by one merge are pairwise distinct, since the seen-set grows as rows are pushed |
| Merge.AddedInBatchOrder | popup.js:1001-1006 | appended rows follow the order of their first occurrence in the batch |
| Merge.MergePreservesDistinct | popup.js:997-1008 | a duplicate-free dataset stays duplicate-free after a merge |
| Merge.MergeOfPresentRows | popup.js:997-1008 | a batch whose rows are all present changes nothing |
| Merge.MergeIdempotent | popup.js:997-1008 | merging the same batch twice equals merging it once |
| Merge.MergeGrowsIff | popup.js:973-977 | the dataset grows exactly when some batch row is not in it yet, which is the condition for another cycle |
| Csv.Label | popup.js:823 | the header map's entry for the key, falling back to the key: the key when the map has no entry or an empty one, the entry when it is non-empty, and never empty unless the key is |
| Csv.Cell | popup.js:831 | the row's value for the key, falling back to empty text: empty when the row lacks the key, and otherwise the value of a pair the row has with that key |
| Csv.CellDistinct | popup.js:831 | in a row with distinct keys, the cell of a pair's key is exactly that pair's value |
| Csv.Table | popup.js:818-834 | the labels of the first row's keys, then each row's cells in that key order: no lines without data, otherwise one line more than there are rows, each with one entry per key of the first row |
| Csv.Escape | popup.js:824 | doubling quotes never shortens the text and at most doubles it |
| Csv.QuotedThen | popup.js:824 | `Quote` writes a field between double quotes with inner quotes doubled: the reader takes the quoted field back and stops right after the closing quote |
| Csv.Format | popup.js:833 | a field is written unchanged with any delimiter other than a comma; with a comma it is quoted, two to twice its length plus two characters long, starting and ending with a double quote |
| Csv.LineSingle | popup.js:833-835 | `Line` joins the formatted fields with the delimiter: a one-field comma-mode line is that field quoted |
| Csv.LineCons | popup.js:833-835 | a comma-mode line of several fields is the first one quoted, a comma, then the line of the others |
| Csv.FormatAll | popup.js:822-825 | one formatted field per field, each quoted and escaped in comma mode and raw otherwise |
| Csv.Lines | popup.js:826-836 | one output line per table line, each the formatted fields joined with the delimiter |
| Csv.ConvertToCsv | popup.js:815-839 | the output is empty exactly when there are no rows |
| Csv.ReadQuotedEscape | popup.js:824 | a field with doubled quotes, followed by the closing quote, reads back as the original text |
| Csv.ReadRecordLine | popup.js:822-826 | one comma-mode line of at least one field, at the end of the text or before a line break, reads back as its fields |
| Csv.ParseLines | popup.js:826-838 | comma-mode lines joined with line breaks read back as the table, when every line has at least one field |
| Csv.TableShape | popup.js:818-836 | the output has the header line plus one line per row, each with one field per key of the first row |
| Csv.CommaRoundTrip | popup.js:815-839 | comma-mode output reads back as the header labels followed by each row's cells, in the first row's key order, with missing cells empty; this holds when there is no data or the first row has at least one key |
| Csv.FormatAllRaw | popup.js:824 | with any delimiter other than a comma, fields are written unchanged |
| Csv.SplitLines | popup.js:826-838 | raw lines split back at the delimiter into their fields when every line has at least one field and no field contains the delimiter or a line break |
| Csv.RawRoundTrip | popup.js:815-839 | raw-mode output splits back into the header labels and cells when there is data, the first row has at least one key, and no field contains the delimiter or a line break |
| Csv.EscapeUnquoted | popup.js:824 | text without quotes is not changed by escaping |
| Csv.QuotedLine | popup.js:824-826 | two quote-free fields are written as `"a","b"` in comma mode |
| Csv.TwoLines | popup.js:838 | a two-line table is written as its two lines around one line break |
| Csv.RenamedHeaderTable | popup.js:818-836 | a renamed key takes its label from the header map, while an unrenamed key keeps its name |
| Csv.RenamedHeaderLines | popup.js:822-835 | the example's header line is `"Full Name","City"` and its data line is `"O'Brien","NY"` |
| Csv.RenamedHeaderExample | popup.js:815-839 | a one-row dataset with one renamed header is written as two quoted lines |
| Csv.QuotingTable | popup.js:818-836 | in the quoting example the second row lacks the first row's key, so its cell is empty |
| Csv.QuotingExample | popup.js:829-835 | quotes in values are doubled, and a key missing from a later row gives an empty quoted field |
| Site.GetHostName | popup.js:46-53 | "unknown" when the URL does not parse; an identity never contains a dot; the identity is `undefined` exactly when the host name is one label containing "www" |
| Site.ConfigKeyInjective | popup.js:467 | two identities share a configuration key exactly when their texts are equal |
| Site.UndefinedKeyShared | popup.js:46-53 | the host `undefined.org` gets the identity "undefined" and so shares its configuration key with an undefined identity |
| Site.HostNameSingleLabel | popup.js:46-53 | a single-label host name is its own identity, unless it contains "www", in which case the identity is `undefined` |
| Site.HostNameLabels | popup.js:46-53 | with two or more labels the identity is the first label, or the second when the first contains "www" anywhere |
| Site.WwwInsideLabel | popup.js:46-53 | "www" anywhere in the first label selects the second: `awwwards.com` and `com.org` both get the identity "com" |
| Site.LetterRun | popup.js:448 | the length of the maximal run of `[a-z]` letters at a position |
| Site.LinkedInAtIff | popup.js:448 | the matcher's test at one start agrees with the regular expression `//[a-z]+\.linkedin\.com` matching there |
| Site.LinkedInFromIff | popup.js:448 | the matcher finds a match from a position on exactly when the regular expression matches at some start from there |
| Site.IsLinkedIn | popup.js:448 | a URL is a LinkedIn page exactly when its lower-cased text matches `//[a-z]+\.linkedin\.com` |
| Site.LinkedInIgnoresCase | popup.js:448 | lower-casing a URL first does not change whether it is a LinkedIn page |
| Site.Classify | popup.js:448-462 | LinkedIn pages are refused first, then pages starting with `about:`, `moz-extension:`, `chrome:` or `chrome-extension:`; everything else is supported |
| Site.LinkedInAnyCase | popup.js:448-452 | any URL with `//`, a run of ASCII letters of either case, then `.linkedin.com` in any case (such as `https://WWW.LinkedIn.com/feed`) is refused as LinkedIn |
| Site.BrowserPageExample | popup.js:455-462 | `about:addons` is refused as a browser page |
| Popup.Saved | popup.js:55-59 | without a configuration key the store is unchanged; otherwise the key maps to the configuration and every other key keeps its entry |
| Popup.SelectorKeyInjective | popup.js:871 | two accepted sites keep their saved selectors under different keys exactly when their identities differ as text |
| Popup.Millis | popup.js:1112 | `parseInt(seconds * 1000)` is the whole number of milliseconds, truncated toward zero |
| Popup.Session.constructor | popup.js:9-26 | the session starts idle with no data, no site, and delays of 1000 ms and 20000 ms |
| Popup.Session.Initialize | popup.js:447-467 | refused pages change nothing; otherwise the session records the site identity, the starting URL and the key `<identity>-config` |
| Popup.Session.SaveConfig | popup.js:55-59 | the configuration is written under the configuration key when the session has one, and nothing is written otherwise |
| Popup.Session.UpdateCrawlDelay | popup.js:1107-1120 | the input is accepted exactly when it is a number, not negative, and below the maximum wait in whole milliseconds; only then is it stored and saved, and the delay invariant holds either way |
| Popup.Session.UpdateMaxWait | popup.js:1122-1135 | the input is accepted exactly when it is a number above the crawl delay in whole milliseconds; only then is it stored and saved, and the delay invariant holds either way |
| Popup.Session.LocateNextButton | popup.js:855-860 | the session waits for a mark |
| Popup.Session.PollForNextButton | popup.js:863-884 | while waiting and not crawling, a non-empty selector is recorded and saved under `nextSelector:<identity>` and the waiting ends; without one the poll repeats; in every other case nothing changes |
| Popup.Session.StartScraping | popup.js:886-909 | crawling starts, the waiting for a mark ends, and the first cycle is requested |
| Popup.Session.ScrapeNextPage | popup.js:911-912 | a cycle starts exactly when the session is crawling |
| Popup.Session.StopScraping | popup.js:1084-1095 | crawling stops |
| Popup.Session.MergeNewData | popup.js:997-1008 | the seen-set loop leaves the dataset equal to the merge of the old dataset and the batch |
| Popup.Session.OnTableData | popup.js:937-979 | no reply or an error changes nothing. Rows update the statistics and merge into the data. Another cycle follows exactly when the session is still crawling and the data grew, and only if some row was new. A batch of known rows ends the crawl and leaves the data unchanged |
| Popup.MergeExample | popup.js:997-1008 | merging `[{A:1,B:2}, {A:3,B:4}]` into `[{A:1,B:2}]` adds only the second row |
| Popup.KeyOrderMatters | popup.js:999-1003 | rows with the same pairs in another key order count as different rows, and both are kept |

## Left out

- The table locator, script injection, the preview grid, column deletion and renaming in the UI, statistics display, export (download and clipboard) and all messages shown to the user are not modelled. They are UI or run in the content script.
- `waitForPageLoad` and the navigation action (`clickNext` / `scrollDown`, `handleScrollOrClickResponse`) are not modelled as messages. `scrapeNextPage` calls `waitForPageLoad` without `isConnectedCheck` (popup.js:933-981), so its start action runs the callback at once (popup.js:1074-1075) and the timers at popup.js:1076-1080 are never set. The rows are therefore requested before the navigation message is sent (popup.js:994). A cycle is modelled as the guard `ScrapeNextPage` followed by `OnTableData`, which takes any reply, whichever page it reflects.
- Loading a saved configuration (`localStorage.getItem` and `JSON.parse` at popup.js:472) is not modelled. It can bring in arbitrary values. Only writes to the store are modelled.
- `new URL(url).hostname` is an input (`None` when the URL does not parse). URL parsing itself is not modelled.
- `Text.ToLower`: only ASCII letters are lower-cased, not the full Unicode mapping of `toLowerCase`.
- `Popup.Millis` and the delay handlers take the parsed number as a real. Neither `parseFloat`'s reading of the input text nor the inputs `Infinity` and values whose text form uses an exponent (where `parseInt` of the product does not truncate) are modelled. For `Infinity`, and for any input whose product `value * 1000` overflows to infinity (such as 1e306), `parseInt(value * 1000)` is NaN; NaN fails both comparisons, so the source accepts it and stores NaN as the delay (popup.js:1112-1118, 1127-1133), after which `0 <= crawlDelay < maxWait` no longer holds.
- The `Date` clock is not modelled. `OnTableData` takes the elapsed milliseconds as a parameter.
- `processingError` and `previewLength` are not modelled. They only feed the display.
- `Rows.Lookup`, `Csv.Cell`: only a row's own properties are modelled. In JavaScript `row[key]` (popup.js:831) also finds members inherited from `Object.prototype`, so for keys such as `constructor`, `toString`, `valueOf` or `__proto__` a row without that key yields a function, and its text is written instead of "".
- `Csv.Label`: only the header map's own properties are modelled. For the keys above, `headers[key]` (popup.js:823) is an inherited function. In comma mode `displayHeader.replace` then throws a TypeError, so `data = [{constructor: "a"}]` with "," makes the source throw where the model writes `"constructor"` and `"a"`. With any other delimiter the label becomes the function's text.
- Row key order is the order of the pairs. JavaScript's rule that integer-like keys enumerate first is not modelled.
- `OnTableData`: an error reply or a missing reply leaves `scraping` as it was and schedules nothing, as the code does (popup.js:938-943). So the crawl stays marked as running, with no cycle pending.
- `Csv.CommaRoundTrip`: not stated when the first row has no keys. The output is then only line breaks, one per row, and cannot be read back as a table of empty lines.
- A `Row` may repeat a key, which no JavaScript object does. `Lookup` takes the first pair with the key, and `Rows.LookupDistinct` and `Csv.CellDistinct` give the exact value for rows whose keys are distinct.
- `Csv.RawRoundTrip`: not stated for no data or a key-less first row. With no data the output is "", which splits into one empty field rather than an empty table.

=== FILE: csv.dfy ===
/**
 * The CSV/TSV serialiser (`convertToCSV`). The first row's keys fix the
 * columns; the first line holds their labels, then one line per row. With
 * the delimiter "," every field is quoted and inner quotes are doubled; any
 * other delimiter writes the text as it is. Lines are joined with "\n".
 *
 * Beside the serialiser this module has a reader for comma mode
 * (`ParseCsv`) and one for raw mode (`SplitTable`); the round-trip lemmas
 * show that the text carries exactly the table of labels and cells.
 */
module Csv {
  import opened Wrappers
  import opened Text
  import opened Rows

  /** The label of a column: its header-map entry when that is a non-empty string, otherwise the raw key (`headers[key] || key`). */
  function Label(headerMap: map<string, string>, key: string): (r: string)
    ensures key !in headerMap ==> r == key
    ensures key in headerMap && headerMap[key] != "" ==> r == headerMap[key]
    ensures key in headerMap && headerMap[key] == "" ==> r == key
    ensures r == "" ==> key == ""
  {
    if key in headerMap && headerMap[key] != "" then headerMap[key] else key
  }

  /** The text of a cell: the row's value for the key, or "" when the row has no such key (`row[key] || ''`). */
  function Cell(row: Row, key: string): (r: string)
    ensures key !in Keys(row) ==> r == ""
    ensures key in Keys(row) ==> exists i :: 0 <= i < |row| && row[i] == (key, r)
    ensures r != "" ==> exists i :: 0 <= i < |row| && row[i] == (key, r)
  {
    match Lookup(row, key)
    case Some(v) => v
    case None => ""
  }

  /** In a row with distinct keys, the cell of a pair's key is that pair's value. */
  lemma CellDistinct(row: Row, i: nat)
    requires DistinctKeys(row) && i < |row|
    ensures Cell(row, row[i].0) == row[i].1
  {
    LookupDistinct(row, i);
  }

  /** The logical content of the output: the header labels, then each row's cells, all in the first row's key order. */
  function Table(data: seq<Row>, headerMap: map<string, string>): (t: seq<seq<string>>)
    ensures data == [] ==> t == []
    ensures data != [] ==> |t| == |data| + 1 && forall j :: 0 <= j < |t| ==> |t[j]| == |Keys(data[0])|
  {
    if data == [] then []
    else
      var keys := Keys(data[0]);
      [seq(|keys|, i requires 0 <= i < |keys| => Label(headerMap, keys[i]))]
      + seq(|data|, j requires 0 <= j < |data| =>
          seq(|keys|, i requires 0 <= i < |keys| => Cell(data[j], keys[i])))
  }

  /** `s.replace(/"/g, '""')`. */
  function Escape(s: string): (r: string)
    ensures |s| <= |r| <= 2 * |s|
    decreases |s|
  {
    if s == [] then ""
    else (if s[0] == '"' then "\"\"" else [s[0]]) + Escape(s[1..])
  }

  /** A comma-mode field: the escaped text between double quotes. */
  function Quote(s: string): string
  {
    "\"" + Escape(s) + "\""
  }

  /** One field as written for the given delimiter. */
  function Format(s: string, delimiter: string): (r: string)
    ensures delimiter != "," ==> r == s
    ensures delimiter == "," ==> |s| + 2 <= |r| <= 2 * |s| + 2 && r[0] == '"' && r[|r| - 1] == '"'
  {
    if delimiter == "," then Quote(s) else s
  }

  function FormatAll(fields: seq<string>, delimiter: string): (r: seq<string>)
    ensures |r| == |fields|
    ensures forall i :: 0 <= i < |fields| ==> r[i] == Format(fields[i], delimiter)
    decreases |fields|
  {
    if fields == [] then [] else [Format(fields[0], delimiter)] + FormatAll(fields[1..], delimiter)
  }

  /** One line: the formatted fields joined with the delimiter. */
  function Line(fields: seq<string>, delimiter: string): string
  {
    Join(FormatAll(fields, delimiter), delimiter)
  }

  function Lines(table: seq<seq<string>>, delimiter: string): (r: seq<string>)
    ensures |r| == |table|
    ensures forall i :: 0 <= i < |table| ==> r[i] == Line(table[i], delimiter)
    decreases |table|
  {
    if table == [] then [] else [Line(table[0], delimiter)] + Lines(table[1..], delimiter)
  }

  /** `convertToCSV(data, delimiter)` with `config.headers` passed as `headerMap`. */
  function ConvertToCsv(data: seq<Row>, headerMap: map<string, string>, delimiter: string): (csv: string)
    ensures csv == "" <==> data == []
  {
    if data == [] then ""
    else
      var lines := Lines(Table(data, headerMap), delimiter);
      assert |lines| >= 2 && lines[1..] != [];
      assert "\n" <= Join(lines, "\n")[|lines[0]|..];
      Join(lines, "\n")
  }

  // ----- Reading comma-mode text back -----

  /**
   * Reads the inside of a quoted field, just after its opening quote: a
   * doubled quote stands for one quote, a single quote closes the field.
   * Returns the field's text and what follows the closing quote.
   */
  function ReadQuoted(s: string): (r: Option<(string, string)>)
    ensures r.Some? ==> |r.value.1| < |s|
    decreases |s|
  {
    if s == [] then None
    else if s[0] == '"' then
      if |s| >= 2 && s[1] == '"' then
        match ReadQuoted(s[2..])
        case None => None
        case Some((text, rest)) => Some(("\"" + text, rest))
      else Some(("", s[1..]))
    else
      match ReadQuoted(s[1..])
      case None => None
      case Some((text, rest)) => Some(([s[0]] + text, rest))
  }

  /**
   * Reads one record of quoted fields separated by ",". Returns the fields,
   * the text after the record, and whether the record ended with "\n"
   * (rather than with the end of the text).
   */
  function ReadRecord(s: string): (r: Option<(seq<string>, string, bool)>)
    ensures r.Some? ==> |r.value.1| < |s|
    decreases |s|
  {
    if s == [] || s[0] != '"' then None
    else
      match ReadQuoted(s[1..])
      case None => None
      case Some((field, rest)) =>
        if rest == [] then Some(([field], "", false))
        else if rest[0] == '\n' then Some(([field], rest[1..], true))
        else if rest[0] == ',' then
          match ReadRecord(rest[1..])
          case None => None
          case Some((fields, tail, more)) => Some(([field] + fields, tail, more))
        else None
  }

  /** Reads comma-mode text into its records of fields. */
  function ParseCsv(s: string): Option<seq<seq<string>>>
    decreases |s|
  {
    if s == [] then Some([])
    else
      match ReadRecord(s)
      case None => None
      case Some((fields, rest, more)) =>
        if !more then Some([fields])
        else
          match ParseCsv(rest)
          case None => None
          case Some(records) => Some([fields] + records)
  }

  /** Reads raw-mode text: lines split at "\n", fields at the delimiter. */
  function SplitTable(text: string, delimiter: char): seq<seq<string>>
  {
    SplitAll(Split(text, '\n'), delimiter)
  }

  function SplitAll(lines: seq<string>, delimiter: char): seq<seq<string>>
    decreases |lines|
  {
    if lines == [] then [] else [Split(lines[0], delimiter)] + SplitAll(lines[1..], delimiter)
  }

  // ----- Round trips -----

  /** An escaped text followed by the closing quote reads back as that text. */
  lemma {:induction false} ReadQuotedEscape(x: string, rest: string)
    requires rest == [] || rest[0] != '"'
    ensures ReadQuoted(Escape(x) + "\"" + rest) == Some((x, rest))
  {
    var s := Escape(x) + "\"" + rest;
    if x == [] {
      assert s == "\"" + rest;
      assert s[1..] == rest;
    } else {
      ReadQuotedEscape(x[1..], rest);
      var tail := Escape(x[1..]) + "\"" + rest;
      if x[0] == '"' {
        assert s == "\"\"" + tail;
        assert s[2..] == tail;
      } else {
        assert s == [x[0]] + tail;
        assert s[1..] == tail;
      }
      assert x == [x[0]] + x[1..];
    }
  }

  /** A quoted field followed by anything but a quote: the record reader sees the quote and reads the field back. */
  lemma QuotedThen(field: string, after: string)
    requires after == [] || after[0] != '"'
    ensures var s := Quote(field) + after;
      s != [] && s[0] == '"' && ReadQuoted(s[1..]) == Some((field, after))
  {
    var s := Quote(field) + after;
    assert s[1..] == Escape(field) + "\"" + after;
    ReadQuotedEscape(field, after);
  }

  /** A line of one field is that field, quoted. */
  lemma LineSingle(fields: seq<string>)
    requires |fields| == 1
    ensures Line(fields, ",") == Quote(fields[0])
  {
    assert FormatAll(fields, ",") == [Quote(fields[0])];
  }

  /** A line of several fields is the first one quoted, a comma, then the line of the others. */
  lemma LineCons(fields: seq<string>)
    requires |fields| >= 2
    ensures Line(fields, ",") == Quote(fields[0]) + "," + Line(fields[1..], ",")
  {
    var formatted := FormatAll(fields, ",");
    assert formatted[0] == Quote(fields[0]);
    assert formatted[1..] == FormatAll(fields[1..], ",");
  }

  /** Moving the text after a line into the part after its first comma. */
  lemma Regroup(first: string, others: string, tail: string)
    ensures first + "," + others + tail == first + ("," + (others + tail))
  {
  }

  /** A quoted field at the end of the text or of a line is a record of that one field. */
  lemma ReadRecordLast(field: string, tail: string)
    requires tail == [] || tail[0] == '\n'
    ensures ReadRecord(Quote(field) + tail) == Some(([field], if tail == [] then [] else tail[1..], tail != []))
  {
    QuotedThen(field, tail);
  }

  /** A quoted field followed by a comma starts a record that goes on with the record after the comma. */
  lemma ReadRecordNext(field: string, more: string)
    ensures ReadRecord(Quote(field) + ("," + more)) ==
      match ReadRecord(more)
      case None => None
      case Some((fields, tail, next)) => Some(([field] + fields, tail, next))
  {
    QuotedThen(field, "," + more);
    assert ("," + more)[1..] == more;
  }

  /** A comma-mode line of at least one field, followed by the end of the text or by "\n", reads back as its fields. */
  lemma {:induction false} ReadRecordLine(fields: seq<string>, tail: string)
    requires fields != []
    requires tail == [] || tail[0] == '\n'
    ensures ReadRecord(Line(fields, ",") + tail) == Some((fields, if tail == [] then [] else tail[1..], tail != []))
  {
    if |fields| == 1 {
      LineSingle(fields);
      ReadRecordLast(fields[0], tail);
      assert fields == [fields[0]];
    } else {
      LineCons(fields);
      var more := Line(fields[1..], ",") + tail;
      Regroup(Quote(fields[0]), Line(fields[1..], ","), tail);
      ReadRecordNext(fields[0], more);
      ReadRecordLine(fields[1..], tail);
      assert fields == [fields[0]] + fields[1..];
    }
  }

  /** The last line of comma-mode text reads back as one record. */
  lemma ParseLast(fields: seq<string>)
    requires fields != []
    ensures ParseCsv(Line(fields, ",")) == Some([fields])
  {
    ReadRecordLine(fields, "");
    assert Line(fields, ",") + "" == Line(fields, ",");
  }

  /** A comma-mode line followed by "\n" reads back as its record, then the records of the rest. */
  lemma ParseNext(fields: seq<string>, rest: string)
    requires fields != []
    ensures ParseCsv(Line(fields, ",") + ("\n" + rest)) ==
      match ParseCsv(rest)
      case None => None
      case Some(records) => Some([fields] + records)
  {
    ReadRecordLine(fields, "\n" + rest);
    assert ("\n" + rest)[1..] == rest;
  }

  /** The text of a one-line table is that line. */
  lemma JoinedSingle(table: seq<seq<string>>, delimiter: string)
    requires |table| == 1
    ensures Join(Lines(table, delimiter), "\n") == Line(table[0], delimiter)
  {
  }

  /** The text of a longer table is its first line, "\n", then the text of the other lines. */
  lemma JoinedCons(table: seq<seq<string>>, delimiter: string)
    requires |table| >= 2
    ensures Join(Lines(table, delimiter), "\n") ==
      Line(table[0], delimiter) + ("\n" + Join(Lines(table[1..], delimiter), "\n"))
  {
    var lines := Lines(table, delimiter);
    assert lines[1..] == Lines(table[1..], delimiter);
    JoinCons(lines, "\n");
  }

  /** A one-line table reads back as its record. */
  lemma ParseOneLine(table: seq<seq<string>>)
    requires |table| == 1 && table[0] != []
    ensures ParseCsv(Join(Lines(table, ","), "\n")) == Some(table)
  {
    JoinedSingle(table, ",");
    ParseLast(table[0]);
    assert table == [table[0]];
  }

  /** A table of a first line and at least one more reads back when the other lines do. */
  lemma ParseMoreLines(first: seq<string>, others: seq<seq<string>>)
    requires first != [] && others != []
    requires ParseCsv(Join(Lines(others, ","), "\n")) == Some(others)
    ensures ParseCsv(Join(Lines([first] + others, ","), "\n")) == Some([first] + others)
  {
    var table := [first] + others;
    assert table[0] == first && table[1..] == others;
    JoinedCons(table, ",");
    ParseNext(first, Join(Lines(others, ","), "\n"));
  }

  /** Comma-mode lines joined with "\n" read back as the table, when no record is empty. */
  lemma {:induction false} ParseLines(table: seq<seq<string>>)
    requires forall i :: 0 <= i < |table| ==> table[i] != []
    ensures ParseCsv(Join(Lines(table, ","), "\n")) == Some(table)
  {
    if |table| == 1 {
      ParseOneLine(table);
    } else if |table| >= 2 {
      ParseLines(table[1..]);
      ParseMoreLines(table[0], table[1..]);
      assert table == [table[0]] + table[1..];
    }
  }

  /** Every line of the table has one entry per key of the first row. */
  lemma TableShape(data: seq<Row>, headerMap: map<string, string>)
    requires data != []
    ensures |Table(data, headerMap)| == |data| + 1
    ensures forall i :: 0 <= i < |Table(data, headerMap)| ==> |Table(data, headerMap)[i]| == |data[0]|
  {
  }

  /**
   * Comma mode round trip: the text reads back as exactly the header labels
   * followed by every row's cells, in the first row's key order. Holds for
   * any cell text, including delimiters, quotes and line breaks; it needs
   * the first row to have a key, since a line of zero fields is empty text.
   */
  lemma CommaRoundTrip(data: seq<Row>, headerMap: map<string, string>)
    requires data == [] || data[0] != []
    ensures ParseCsv(ConvertToCsv(data, headerMap, ",")) == Some(Table(data, headerMap))
  {
    if data != [] {
      TableShape(data, headerMap);
      ParseLines(Table(data, headerMap));
    }
  }

  /** In raw mode each field is written as it is. */
  lemma {:induction false} FormatAllRaw(fields: seq<string>, delimiter: string)
    requires delimiter != ","
    ensures FormatAll(fields, delimiter) == fields
  {
    if fields != [] {
      FormatAllRaw(fields[1..], delimiter);
    }
  }

  /** No field of the table contains `c`. */
  ghost predicate Avoids(table: seq<seq<string>>, c: char)
  {
    forall i, j :: 0 <= i < |table| && 0 <= j < |table[i]| ==> c !in table[i][j]
  }

  /** Raw lines split back into their fields. */
  lemma {:induction false} SplitLines(table: seq<seq<string>>, d: char)
    requires d != ',' && d != '\n'
    requires forall i :: 0 <= i < |table| ==> table[i] != []
    requires Avoids(table, d) && Avoids(table, '\n')
    ensures |Lines(table, [d])| == |table|
    ensures forall i :: 0 <= i < |table| ==> '\n' !in Lines(table, [d])[i]
    ensures SplitAll(Lines(table, [d]), d) == table
  {
    if table != [] {
      SplitLines(table[1..], d);
      var fields := table[0];
      FormatAllRaw(fields, [d]);
      assert forall j :: 0 <= j < |fields| ==> d !in fields[j] && '\n' !in fields[j] by {
        forall j | 0 <= j < |fields| ensures d !in fields[j] && '\n' !in fields[j] {
          assert fields[j] == table[0][j];
        }
      }
      SplitJoin(fields, d);
      JoinAvoids(fields, [d], '\n');
      var lines := Lines(table, [d]);
      assert lines[1..] == Lines(table[1..], [d]);
      forall i | 0 <= i < |table| ensures '\n' !in lines[i] {
        if i > 0 {
          assert lines[i] == Lines(table[1..], [d])[i - 1];
        }
      }
    }
  }

  /**
   * Raw mode round trip: when the delimiter is one character other than ","
   * and "\n", and no label or cell contains the delimiter or a line break,
   * splitting the text at "\n" and then at the delimiter gives back the
   * header labels and every row's cells.
   */
  lemma RawRoundTrip(data: seq<Row>, headerMap: map<string, string>, d: char)
    requires data != [] && data[0] != []
    requires d != ',' && d != '\n'
    requires Avoids(Table(data, headerMap), d) && Avoids(Table(data, headerMap), '\n')
    ensures SplitTable(ConvertToCsv(data, headerMap, [d]), d) == Table(data, headerMap)
  {
    var table := Table(data, headerMap);
    TableShape(data, headerMap);
    SplitLines(table, d);
    var lines := Lines(table, [d]);
    SplitJoin(lines, '\n');
  }

  /** Text without quotes is written unchanged inside the quotes. */
  lemma {:induction false} EscapeUnquoted(s: string)
    requires '"' !in s
    ensures Escape(s) == s
  {
    if s != [] {
      EscapeUnquoted(s[1..]);
    }
  }

  /** A line of two quote-free fields in comma mode. */
  lemma QuotedLine(a: string, b: string)
    requires '"' !in a && '"' !in b
    ensures Line([a, b], ",") == "\"" + a + "\",\"" + b + "\""
  {
    EscapeUnquoted(a);
    EscapeUnquoted(b);
    var formatted := FormatAll([a, b], ",");
    assert formatted == [Quote(a), Quote(b)];
    assert formatted[1..] == [Quote(b)];
    assert Join(formatted, ",") == Quote(a) + "," + Quote(b);
  }

  /** A two-line table is written as its two lines around one "\n". */
  lemma TwoLines(data: seq<Row>, headerMap: map<string, string>, delimiter: string)
    requires |Table(data, headerMap)| == 2
    ensures var table := Table(data, headerMap);
      ConvertToCsv(data, headerMap, delimiter) == Line(table[0], delimiter) + "\n" + Line(table[1], delimiter)
  {
    var table := Table(data, headerMap);
    var lines := Lines(table, delimiter);
    assert data != [];
    assert lines[1..] == [lines[1]];
    assert Join(lines, "\n") == lines[0] + "\n" + lines[1];
  }

  /** The table behind the renamed-header example. */
  lemma RenamedHeaderTable(row: Row, headerMap: map<string, string>)
    requires row == [("Name", "O'Brien"), ("City", "NY")]
    requires headerMap == map["Name" := "Full Name"]
    ensures Table([row], headerMap) == [["Full Name", "City"], ["O'Brien", "NY"]]
  {
    assert Keys(row) == ["Name", "City"];
    assert Lookup(row, "City") == Some("NY");
    var t := Table([row], headerMap);
    assert |t| == 2 && |t[0]| == 2 && |t[1]| == 2;
    assert t[0][0] == Label(headerMap, "Name") == "Full Name";
    assert t[0][1] == Label(headerMap, "City") == "City";
    assert t[1][0] == Cell(row, "Name") == "O'Brien";
    assert t[1][1] == Cell(row, "City") == "NY";
    assert t[0] == ["Full Name", "City"] && t[1] == ["O'Brien", "NY"];
  }

  /** The two lines of the renamed-header example. */
  lemma RenamedHeaderLines(a: string, b: string, c: string, d: string)
    requires a == "Full Name" && b == "City" && c == "O'Brien" && d == "NY"
    ensures Line([a, b], ",") == "\"Full Name\",\"City\""
    ensures Line([c, d], ",") == "\"O'Brien\",\"NY\""
  {
    QuotedLine(a, b);
    QuotedLine(c, d);
  }

  /** The example of a renamed header: `"Full Name","City"`, a line break, then `"O'Brien","NY"`. */
  lemma RenamedHeaderExample(row: Row, headerMap: map<string, string>)
    requires row == [("Name", "O'Brien"), ("City", "NY")]
    requires headerMap == map["Name" := "Full Name"]
    ensures ConvertToCsv([row], headerMap, ",") == "\"Full Name\",\"City\"" + "\n" + "\"O'Brien\",\"NY\""
  {
    RenamedHeaderTable(row, headerMap);
    TwoLines([row], headerMap, ",");
    var t := Table([row], headerMap);
    assert t[0] == [t[0][0], t[0][1]] && t[1] == [t[1][0], t[1][1]];
    RenamedHeaderLines(t[0][0], t[0][1], t[1][0], t[1][1]);
  }

  /** The table behind the quoting example: the second row lacks the key "a". */
  lemma QuotingTable(data: seq<Row>)
    requires data == [[("a", "x\"y")], [("b", "z")]]
    ensures Table(data, map[]) == [["a"], ["x\"y"], [""]]
  {
    assert Keys(data[0]) == ["a"];
    assert Lookup(data[1], "a") == None;
    var t := Table(data, map[]);
    assert |t| == 3 && |t[0]| == 1 && |t[1]| == 1 && |t[2]| == 1;
    assert t[0][0] == Label(map[], "a") == "a";
    assert t[1][0] == Cell(data[0], "a") == "x\"y";
    assert t[2][0] == Cell(data[1], "a") == "";
    assert t[0] == ["a"] && t[1] == ["x\"y"] && t[2] == [""];
  }

  /** The three fields of the quoting example, quoted. */
  lemma QuotedValues(a: string, b: string, c: string)
    requires a == "a" && b == "x\"y" && c == ""
    ensures Quote(a) == "\"a\"" && Quote(b) == "\"x\"\"y\"" && Quote(c) == "\"\""
  {
    EscapeUnquoted(a);
    assert Escape("x\"y") == "x\"\"y";
  }

  /** The lines of the quoting example: the quote in the value is doubled, and the empty cell is an empty quoted field. */
  lemma QuotingLines(t: seq<seq<string>>)
    requires t == [["a"], ["x\"y"], [""]]
    ensures Join(Lines(t, ","), "\n") == "\"a\"\n\"x\"\"y\"\n\"\""
  {
    JoinedCons(t, ",");
    JoinedCons(t[1..], ",");
    JoinedSingle(t[1..][1..], ",");
    assert t[1..][0] == t[1] && t[1..][1..][0] == t[2];
    LineSingle(t[0]);
    LineSingle(t[1]);
    LineSingle(t[2]);
    QuotedValues(t[0][0], t[1][0], t[2][0]);
  }

  /** Quotes inside a value are doubled; a key missing from a later row gives an empty field. */
  lemma QuotingExample(data: seq<Row>)
    requires data == [[("a", "x\"y")], [("b", "z")]]
    ensures ConvertToCsv(data, map[], ",") == "\"a\"\n\"x\"\"y\"\n\"\""
  {
    var t := Table(data, map[]);
    QuotingTable(data);
    QuotingLines(t);
    assert data != [];
    assert ConvertToCsv(data, map[], ",") == Join(Lines(t, ","), "\n");
  }
}

=== FILE: merge.dfy ===
/**
 * The row merger (`mergeNewData`): newly scraped rows are appended to the
 * dataset unless an equal row is already present. Rows are compared through
 * `JSON.stringify`, which for rows of string values is injective, so two rows
 * are "the same" exactly when they are equal as sequences of (key, value)
 * pairs: same keys, same order, same values. The definitions are generic in
 * the element type; the popup instantiates them with `Row`.
 */
module Merge {

  /** No element occurs twice. */
  ghost predicate Distinct<T>(s: seq<T>)
  {
    forall i, j :: 0 <= i < j < |s| ==> s[i] != s[j]
  }

  /** The position of the first occurrence of `x` in `s`. */
  function FirstIndex<T(==)>(s: seq<T>, x: T): (k: nat)
    requires x in s
    ensures k < |s| && s[k] == x && x !in s[..k]
  {
    if s[0] == x then 0
    else
      var k := FirstIndex(s[1..], x);
      assert s[..k + 1] == [s[0]] + s[1..][..k];
      k + 1
  }

  /**
   * The dataset after `mergeNewData(batch)`: the rows of `batch` are taken
   * in order, and each one is appended when no equal row is present yet
   * (neither in `data` nor among the rows appended before it).
   */
  function Merged<T(==)>(data: seq<T>, batch: seq<T>): (r: seq<T>)
    ensures |data| <= |r| <= |data| + |batch|
    decreases |batch|
  {
    if batch == [] then data
    else
      var before := Merged(data, batch[..|batch| - 1]);
      var row := batch[|batch| - 1];
      if row in before then before else before + [row]
  }

  /**
   * Independent description of what a merge appends: the rows `batch[j]`
   * that occur neither in `data` nor earlier in the batch, `batch[..j]`,
   * in batch order.
   */
  function Added<T(==)>(data: seq<T>, batch: seq<T>): (r: seq<T>)
    ensures |r| <= |batch|
    ensures forall i :: 0 <= i < |r| ==> r[i] in batch && r[i] !in data
    decreases |batch|
  {
    if batch == [] then []
    else
      var earlier := batch[..|batch| - 1];
      var row := batch[|batch| - 1];
      Added(data, earlier) + (if row !in data && row !in earlier then [row] else [])
  }

  /** A row is among the appended ones exactly when the batch has it and the old dataset does not. */
  lemma {:induction false} AddedMembers<T>(data: seq<T>, batch: seq<T>)
    ensures forall x :: x in Added(data, batch) <==> x in batch && x !in data
  {
    if batch != [] {
      var earlier := batch[..|batch| - 1];
      AddedMembers(data, earlier);
      assert batch == earlier + [batch[|batch| - 1]];
    }
  }

  /** Merging appends exactly `Added(data, batch)` to the old dataset. */
  lemma {:induction false} MergedIsAppend<T>(data: seq<T>, batch: seq<T>)
    ensures Merged(data, batch) == data + Added(data, batch)
  {
    if batch != [] {
      var earlier := batch[..|batch| - 1];
      var row := batch[|batch| - 1];
      MergedIsAppend(data, earlier);
      AddedMembers(data, earlier);
      assert row in Merged(data, earlier) <==> row in data || row in earlier;
    }
  }

  /** The old dataset is an unchanged prefix of the merged one (existing rows, duplicates included, are never removed or moved). */
  lemma MergedKeepsPrefix<T>(data: seq<T>, batch: seq<T>)
    ensures |Merged(data, batch)| >= |data|
    ensures Merged(data, batch)[..|data|] == data
  {
    MergedIsAppend(data, batch);
  }

  /** A row is appended exactly when it is in the batch and not in the old dataset. */
  lemma AppendedIff<T>(data: seq<T>, batch: seq<T>)
    ensures |Merged(data, batch)| >= |data|
    ensures forall x :: x in Merged(data, batch)[|data|..] <==> x in batch && x !in data
  {
    MergedIsAppend(data, batch);
    AddedMembers(data, batch);
    assert Merged(data, batch)[|data|..] == Added(data, batch);
  }

  /** The appended rows are pairwise distinct. */
  lemma {:induction false} AddedDistinct<T>(data: seq<T>, batch: seq<T>)
    ensures Distinct(Added(data, batch))
  {
    if batch != [] {
      var earlier := batch[..|batch| - 1];
      AddedDistinct(data, earlier);
      AddedMembers(data, earlier);
    }
  }

  /** Appending to a sequence does not move the first occurrence of an element already in it. */
  lemma {:induction false} FirstIndexExtend<T>(s: seq<T>, y: T, x: T)
    requires x in s
    ensures FirstIndex(s + [y], x) == FirstIndex(s, x)
  {
    if s[0] != x {
      assert (s + [y])[1..] == s[1..] + [y];
      FirstIndexExtend(s[1..], y, x);
    }
  }

  /** Every element of `s` is in `batch`, and `s` lists them in the order of their first occurrence in `batch`. */
  ghost predicate InBatchOrder<T>(s: seq<T>, batch: seq<T>)
  {
    && (forall x :: x in s ==> x in batch)
    && forall p, q :: 0 <= p < q < |s| ==> FirstIndex(batch, s[p]) < FirstIndex(batch, s[q])
  }

  /** Extending the batch keeps first occurrences, and a row new to the batch comes after all of them. */
  lemma InBatchOrderExtend<T>(s: seq<T>, earlier: seq<T>, row: T)
    requires InBatchOrder(s, earlier)
    ensures InBatchOrder(s, earlier + [row])
    ensures row !in earlier ==> InBatchOrder(s + [row], earlier + [row])
  {
    var batch := earlier + [row];
    forall x | x in s
      ensures FirstIndex(batch, x) == FirstIndex(earlier, x) < |earlier|
    {
      FirstIndexExtend(earlier, row, x);
    }
    forall p, q | 0 <= p < q < |s|
      ensures FirstIndex(batch, s[p]) < FirstIndex(batch, s[q])
    {
      assert s[p] in s && s[q] in s;
    }
    if row !in earlier {
      assert FirstIndex(batch, row) == |earlier|;
      var t := s + [row];
      forall p, q | 0 <= p < q < |t|
        ensures FirstIndex(batch, t[p]) < FirstIndex(batch, t[q])
      {
        assert t[p] == s[p] && s[p] in s;
        if q < |s| {
          assert t[q] == s[q];
        }
      }
    }
  }

  /** The appended rows keep the batch order: they appear in the order of their first occurrence in the batch. */
  lemma {:induction false} AddedInBatchOrder<T>(data: seq<T>, batch: seq<T>)
    ensures InBatchOrder(Added(data, batch), batch)
  {
    if batch != [] {
      var earlier := batch[..|batch| - 1];
      var row := batch[|batch| - 1];
      AddedInBatchOrder(data, earlier);
      InBatchOrderExtend(Added(data, earlier), earlier, row);
      assert batch == earlier + [row];
    }
  }

  /** A merge leaves a duplicate-free dataset duplicate-free. */
  lemma MergePreservesDistinct<T>(data: seq<T>, batch: seq<T>)
    requires Distinct(data)
    ensures Distinct(Merged(data, batch))
  {
    MergedIsAppend(data, batch);
    AddedMembers(data, batch);
    AddedDistinct(data, batch);
    var added := Added(data, batch);
    var merged := data + added;
    forall i, j | 0 <= i < j < |merged|
      ensures merged[i] != merged[j]
    {
      if j >= |data| && i < |data| {
        assert merged[j] in added;
      } else if i >= |data| {
        assert merged[i] == added[i - |data|] && merged[j] == added[j - |data|];
      }
    }
  }

  /** A batch whose rows are all present already changes nothing. */
  lemma {:induction false} MergeOfPresentRows<T>(data: seq<T>, batch: seq<T>)
    requires forall x :: x in batch ==> x in data
    ensures Merged(data, batch) == data
  {
    if batch != [] {
      var earlier := batch[..|batch| - 1];
      assert batch[|batch| - 1] in batch;
      MergeOfPresentRows(data, earlier);
    }
  }

  /** Merging the same batch twice gives the same dataset as merging it once. */
  lemma MergeIdempotent<T>(data: seq<T>, batch: seq<T>)
    ensures Merged(Merged(data, batch), batch) == Merged(data, batch)
  {
    MergedIsAppend(data, batch);
    AddedMembers(data, batch);
    MergeOfPresentRows(Merged(data, batch), batch);
  }

  /** The dataset grows exactly when some row of the batch is not in it yet; this is what ends a crawl. */
  lemma MergeGrowsIff<T>(data: seq<T>, batch: seq<T>)
    ensures |Merged(data, batch)| > |data| <==> exists j :: 0 <= j < |batch| && batch[j] !in data
  {
    MergedIsAppend(data, batch);
    AddedMembers(data, batch);
    var added := Added(data, batch);
    if |added| > 0 {
      assert added[0] in added;
      var j := FirstIndex(batch, added[0]);
      assert batch[j] !in data;
    }
  }
}

=== FILE: popup.dfy ===
/**
 * The popup's session: the state the popup keeps in its global
 * `extensionData`, as a class whose methods are the popup's handlers.
 * Answers from the content script, the time a cycle took and the page's
 * URL and host name come in as parameters; `localStorage` is the `store`
 * map (writes only).
 */
module Popup {
  import opened Wrappers
  import opened Rows
  import opened Merge
  import opened Site

  /** A site's configuration: header labels, deleted columns, and the two delays in milliseconds. */
  datatype Config = Config(headers: map<string, string>, deletedFields: set<string>, crawlDelay: int, maxWait: int)

  /** The configuration a session starts with: no renamed headers, 1 s between pages, at most 20 s of waiting. */
  const DefaultConfig: Config := Config(map[], {}, 1000, 20000)

  /** What the popup writes to `localStorage`: a site's configuration, or the selector of its "next" control. */
  datatype Stored = SavedConfig(config: Config) | SavedSelector(selector: string)

  /** The content script's answer to `getTableData`. */
  datatype TableReply =
    | NoReply                                      // the callback ran without a response
    | ErrorReply(error: string)                    // `{error, errorId}`
    | TableRows(rows: seq<Row>, failedToProcess: bool)

  /** Whether the response handler schedules another cycle (after `config.crawlDelay`). */
  datatype Cycle = Continue | Stop

  /** `saveConfig()`: the store after writing `config` under the configuration key, when the session has one. */
  function Saved(store: map<string, Stored>, configName: Option<string>, config: Config): (r: map<string, Stored>)
    ensures configName.None? ==> r == store
    ensures configName.Some? ==> r.Keys == store.Keys + {configName.value} && r[configName.value] == SavedConfig(config)
    ensures forall k :: k in store && configName != Some(k) ==> r[k] == store[k]
  {
    match configName
    case None => store
    case Some(key) => store[key := SavedConfig(config)]
  }

  /**
   * `parseInt(seconds * 1000)`: the input in seconds as whole milliseconds,
   * truncated toward zero.
   */
  function Millis(seconds: real): (ms: int)
    ensures seconds >= 0.0 ==> ms >= 0 && ms as real <= seconds * 1000.0 < ms as real + 1.0
    ensures seconds < 0.0 ==> ms <= 0 && ms as real - 1.0 < seconds * 1000.0 <= ms as real
  {
    if seconds >= 0.0 then (seconds * 1000.0).Floor else -((-seconds * 1000.0).Floor)
  }

  /** The key under which the "next" selector is saved: `nextSelector:${hostName}` (`null` before the page is accepted). */
  function SelectorKey(hostName: Option<HostName>): string
  {
    "nextSelector:" + match hostName
      case None => "null"
      case Some(h) => h.AsText()
  }

  /** Two accepted sites keep their selectors apart exactly when their identities differ as text. */
  lemma SelectorKeyInjective(a: HostName, b: HostName)
    ensures SelectorKey(Some(a)) == SelectorKey(Some(b)) <==> a.AsText() == b.AsText()
  {
    var p := "nextSelector:";
    if SelectorKey(Some(a)) == SelectorKey(Some(b)) {
      assert a.AsText() == SelectorKey(Some(a))[|p|..];
    }
  }

  class Session {
    var hostName: Option<HostName>
    var startingUrl: Option<string>
    var configName: Option<string>
    var config: Config
    var store: map<string, Stored>
    var scraping: bool
    var gettingNext: bool
    var nextSelector: Option<string>
    var failedToProcess: bool
    var data: seq<Row>
    var pages: nat
    var lastRows: nat
    var workingTime: nat

    /** The configuration invariant: the delay between pages is non-negative and below the maximum wait. */
    ghost predicate Valid()
      reads this
    {
      0 <= config.crawlDelay < config.maxWait
    }

    /** The initial `extensionData`, over what `localStorage` already holds. */
    constructor (saved: map<string, Stored>)
      ensures Valid()
      ensures store == saved && config == DefaultConfig
      ensures hostName == None && startingUrl == None && configName == None
      ensures !scraping && !gettingNext && nextSelector == None && !failedToProcess
      ensures data == [] && pages == 0 && lastRows == 0 && workingTime == 0
    {
      hostName, startingUrl, configName := None, None, None;
      config := DefaultConfig;
      store := saved;
      scraping, gettingNext, nextSelector, failedToProcess := false, false, None, false;
      data, pages, lastRows, workingTime := [], 0, 0, 0;
    }

    /**
     * The start of `initializePopup` for the active tab: refuse LinkedIn
     * and browser pages, otherwise record the site identity and its
     * configuration key.
     */
    method Initialize(url: string, hostname: Option<string>) returns (verdict: UrlVerdict)
      requires Valid()
      modifies this`hostName, this`startingUrl, this`configName
      ensures Valid()
      ensures verdict == Classify(url)
      ensures verdict != Supported ==> unchanged(this)
      ensures verdict == Supported ==>
        && hostName == Some(GetHostName(hostname))
        && startingUrl == Some(url)
        && configName == Some(ConfigKey(GetHostName(hostname)))
    {
      verdict := Classify(url);
      if verdict == Supported {
        var host := GetHostName(hostname);
        hostName := Some(host);
        startingUrl := Some(url);
        configName := Some(ConfigKey(host));
      }
    }

    /** `saveConfig()`. */
    method SaveConfig()
      modifies this`store
      ensures store == Saved(old(store), configName, config)
    {
      if configName.Some? {
        store := store[configName.value := SavedConfig(config)];
      }
    }

    /**
     * `updateCrawlDelay()` for an input of `seconds` (`None` when it does
     * not parse as a number): rejected when negative or when its whole
     * milliseconds are not below the maximum wait; otherwise stored and saved.
     */
    method UpdateCrawlDelay(seconds: Option<real>) returns (accepted: bool)
      requires Valid()
      modifies this`config, this`store
      ensures Valid()
      ensures accepted <==> seconds.Some? && seconds.value >= 0.0 && Millis(seconds.value) < old(config.maxWait)
      ensures accepted ==> config == old(config).(crawlDelay := Millis(seconds.value))
      ensures accepted ==> store == Saved(old(store), configName, config)
      ensures !accepted ==> config == old(config) && store == old(store)
    {
      if seconds.None? || seconds.value < 0.0 || Millis(seconds.value) >= config.maxWait {
        return false;
      }
      config := config.(crawlDelay := Millis(seconds.value));
      SaveConfig();
      accepted := true;
    }

    /**
     * `updateMaxWait()` for an input of `seconds` (`None` when it does not
     * parse as a number): rejected unless its whole milliseconds are above
     * the crawl delay; otherwise stored and saved.
     */
    method UpdateMaxWait(seconds: Option<real>) returns (accepted: bool)
      requires Valid()
      modifies this`config, this`store
      ensures Valid()
      ensures accepted <==> seconds.Some? && Millis(seconds.value) > old(config.crawlDelay)
      ensures accepted ==> config == old(config).(maxWait := Millis(seconds.value))
      ensures accepted ==> store == Saved(old(store), configName, config)
      ensures !accepted ==> config == old(config) && store == old(store)
    {
      if seconds.None? || Millis(seconds.value) <= config.crawlDelay {
        return false;
      }
      config := config.(maxWait := Millis(seconds.value));
      SaveConfig();
      accepted := true;
    }

    /** `locateNextButton()`: start waiting for the user to mark the "next" control. */
    method LocateNextButton()
      modifies this`gettingNext
      ensures gettingNext
    {
      gettingNext := true;
    }

    /**
     * One round of `pollForNextButton()`, with the content script's answer
     * `reply` (the selector of the marked control, if any). While the
     * session waits for a mark and is not crawling, a non-empty selector is
     * recorded and saved and the waiting ends; otherwise the poll is
     * repeated (after one second). Returns whether it is repeated.
     */
    method PollForNextButton(reply: Option<string>) returns (pollAgain: bool)
      requires Valid()
      modifies this`nextSelector, this`gettingNext, this`store
      ensures Valid()
      ensures var marked := old(gettingNext) && !scraping && reply.Some? && reply.value != "";
        && (marked ==> nextSelector == reply && !gettingNext
                       && store == old(store)[SelectorKey(hostName) := SavedSelector(reply.value)])
        && (!marked ==> unchanged(this))
        && (pollAgain <==> old(gettingNext) && !scraping && !marked)
    {
      pollAgain := false;
      if !gettingNext {
        return;
      }
      if !scraping && gettingNext {
        if reply.Some? && reply.value != "" {
          nextSelector := reply;
          store := store[SelectorKey(hostName) := SavedSelector(reply.value)];
          gettingNext := false;
        } else {
          pollAgain := true;
        }
      }
    }

    /** `startScraping()`: stop waiting for a mark, start crawling and begin the first cycle. */
    method StartScraping() returns (requested: bool)
      requires Valid()
      modifies this`gettingNext, this`scraping
      ensures Valid()
      ensures scraping && !gettingNext && requested
    {
      gettingNext := false;
      scraping := true;
      requested := ScrapeNextPage();
    }

    /**
     * The entry of `scrapeNextPage()`: a cycle (navigate, then ask for the
     * table's rows) starts only while crawling. Returns whether it started;
     * the answer then comes to `OnTableData`.
     */
    method ScrapeNextPage() returns (requested: bool)
      ensures requested == scraping
    {
      requested := scraping;
    }

    /** `stopScraping()`. */
    method StopScraping()
      modifies this`scraping
      ensures !scraping
    {
      scraping := false;
    }

    /**
     * `mergeNewData(newData)`: append each row of `newData` that is not
     * already present, tracking the rows seen so far in a set.
     */
    method MergeNewData(newData: seq<Row>)
      modifies this`data
      ensures data == Merged(old(data), newData)
    {
      var existing: set<Row> := set r | r in data;
      var i := 0;
      while i < |newData|
        invariant 0 <= i <= |newData|
        invariant data == Merged(old(data), newData[..i])
        invariant forall r :: r in existing <==> r in data
      {
        var row := newData[i];
        assert newData[..i + 1][..i] == newData[..i];
        if row !in existing {
          data := data + [row];
          existing := existing + {row};
        }
        i := i + 1;
      }
      assert newData[..|newData|] == newData;
    }

    /**
     * The handler of the content script's answer to `getTableData` within
     * `scrapeNextPage`, `elapsed` milliseconds after the cycle started. No
     * answer or an error leaves everything as it was and schedules nothing.
     * Rows update the statistics and are merged into the data; another
     * cycle follows only while crawling and when the data grew, and a
     * cycle that added nothing ends the crawl.
     */
    method OnTableData(reply: TableReply, elapsed: nat) returns (next: Cycle)
      requires Valid()
      modifies this`data, this`pages, this`lastRows, this`workingTime, this`failedToProcess, this`scraping
      ensures Valid()
      ensures !reply.TableRows? ==> next == Stop && unchanged(this)
      ensures reply.TableRows? ==>
        && failedToProcess == reply.failedToProcess
        && lastRows == |reply.rows|
        && pages == old(pages) + 1
        && workingTime == old(workingTime) + elapsed
        && data == Merged(old(data), reply.rows)
        && scraping == (old(scraping) && |data| > |old(data)|)
        && (next == Continue <==> scraping)
      ensures reply.TableRows? ==> |data| >= |old(data)| && data[..|old(data)|] == old(data)
      ensures next == Continue ==> exists j :: 0 <= j < |reply.rows| && reply.rows[j] !in old(data)
      ensures reply.TableRows? && (forall j :: 0 <= j < |reply.rows| ==> reply.rows[j] in old(data)) ==>
        next == Stop && !scraping && data == old(data)
    {
      next := Stop;
      if !reply.TableRows? {
        return;
      }
      var previousLength := |data|;
      failedToProcess := reply.failedToProcess;
      lastRows := |reply.rows|;
      pages := pages + 1;
      workingTime := workingTime + elapsed;
      MergeNewData(reply.rows);
      MergedKeepsPrefix(old(data), reply.rows);
      MergeGrowsIff(old(data), reply.rows);
      if scraping && |data| > previousLength {
        next := Continue;
      } else if |data| == previousLength {
        StopScraping();
      }
    }
  }

  /** The merge example: `[{A:"1",B:"2"}]` and the batch `[{A:"1",B:"2"}, {A:"3",B:"4"}]` give two rows, one of them added. */
  lemma MergeExample(r1: Row, r2: Row)
    requires r1 == [("A", "1"), ("B", "2")] && r2 == [("A", "3"), ("B", "4")]
    ensures Merged([r1], [r1, r2]) == [r1, r2]
  {
    assert [r1, r2][..1] == [r1];
    assert [r1][..0] == [];
    assert Merged([r1], [r1]) == [r1];
    assert r1[0] != r2[0];
  }

  /** Rows with the same values under the same keys in another order are different rows, and both are kept. */
  lemma KeyOrderMatters(r1: Row, r2: Row)
    requires r1 == [("A", "1"), ("B", "2")] && r2 == [("B", "2"), ("A", "1")]
    ensures Merged([r1], [r2]) == [r1, r2]
  {
    assert [r2][..0] == [];
    assert r1[0] != r2[0];
  }
}

=== FILE: rows.dfy ===
/**
 * A scraped row: the row object's properties as (key, value) pairs, in the
 * object's property-enumeration order (the order `Object.keys` and
 * `JSON.stringify` both use).
 */
module Rows {
  import opened Wrappers

  type Row = seq<(string, string)>

  /** `Object.keys(row)`. */
  function Keys(row: Row): (ks: seq<string>)
    ensures |ks| == |row|
    ensures forall i :: 0 <= i < |row| ==> ks[i] == row[i].0
  {
    seq(|row|, i requires 0 <= i < |row| => row[i].0)
  }

  /** A key is listed exactly when some pair of the row has it. */
  lemma KeysMembers(row: Row, k: string)
    ensures k in Keys(row) <==> exists i :: 0 <= i < |row| && row[i].0 == k
  {
    if k in Keys(row) {
      var m :| 0 <= m < |row| && Keys(row)[m] == k;
      assert row[m].0 == k;
    }
  }

  /** `row[key]`: the value of the first pair with that key, or `None` (`undefined`) when the row has no such key. */
  function Lookup(row: Row, key: string): (r: Option<string>)
    ensures r.None? <==> key !in Keys(row)
    ensures r.Some? ==> exists i :: 0 <= i < |row| && row[i] == (key, r.value)
    ensures r.Some? ==> exists i :: 0 <= i < |row| && row[i] == (key, r.value) && forall j :: 0 <= j < i ==> row[j].0 != key
    decreases |row|
  {
    if row == [] then None
    else if row[0].0 == key then
      assert Keys(row)[0] == key;
      Some(row[0].1)
    else
      var r := Lookup(row[1..], key);
      assert Keys(row) == [row[0].0] + Keys(row[1..]);
      if r.None? then r
      else
        var m :| 0 <= m < |row| - 1 && row[1..][m] == (key, r.value) && forall j :: 0 <= j < m ==> row[1..][j].0 != key;
        assert row[m + 1] == (key, r.value);
        NoKeyBefore(row, key, m);
        r
  }

  /** If the first pair and the first `m` pairs of the rest lack the key, so do the first `m + 1` pairs. */
  lemma NoKeyBefore(row: Row, key: string, m: nat)
    requires row != [] && row[0].0 != key && m < |row|
    requires forall j :: 0 <= j < m ==> row[1..][j].0 != key
    ensures forall j :: 0 <= j < m + 1 ==> row[j].0 != key
  {
    forall j | 0 < j < m + 1
      ensures row[j].0 != key
    {
      assert row[j] == row[1..][j - 1];
    }
  }

  /** No two pairs share a key, as in any JavaScript object. */
  ghost predicate DistinctKeys(row: Row)
  {
    forall i, j :: 0 <= i < j < |row| ==> row[i].0 != row[j].0
  }

  /** With distinct keys, looking up a pair's key gives that pair's value. */
  lemma LookupDistinct(row: Row, i: nat)
    requires DistinctKeys(row) && i < |row|
    ensures Lookup(row, row[i].0) == Some(row[i].1)
  {
    var r := Lookup(row, row[i].0);
    assert row[i].0 in Keys(row);
    var m :| 0 <= m < |row| && row[m] == (row[i].0, r.value) && forall j :: 0 <= j < m ==> row[j].0 != row[i].0;
    assert m == i;
  }
}

=== FILE: site.dfy ===
/**
 * Site identity and the pages the popup refuses. The host name string is
 * taken as given (what `new URL(url).hostname` yields, or `None` when that
 * throws); URL parsing itself is not modelled.
 */
module Site {
  import opened Wrappers
  import opened Text

  /** What `getHostName` returns: a label, or JavaScript `undefined` when the label it picks does not exist. */
  datatype HostName = Undefined | Name(id: string)
  {
    /** The host name as JavaScript turns it into text (`'' + hostName`). */
    function AsText(): string
    {
      match this
      case Undefined => "undefined"
      case Name(id) => id
    }
  }

  /**
   * `getHostName(url)`: split the host name at "."; when the first label
   * contains "www" anywhere, take the second label, otherwise the first.
   * "unknown" when the URL cannot be parsed.
   */
  function GetHostName(hostname: Option<string>): (r: HostName)
    ensures hostname.None? ==> r == Name("unknown")
    ensures hostname.Some? && r.Name? ==> '.' !in r.id
    ensures r.Undefined? <==> hostname.Some? && '.' !in hostname.value && HasWww(hostname.value)
  {
    match hostname
    case None => Name("unknown")
    case Some(host) =>
      var parts := Split(host, '.');
      SplitFirst(host, '.');
      if IndexOf(parts[0], "www") > -1 then
        if |parts| > 1 then Name(parts[1]) else Undefined
      else Name(parts[0])
  }

  /** The key of the site's saved configuration: `hostName + '-config'`. */
  function ConfigKey(host: HostName): string
  {
    host.AsText() + "-config"
  }

  /** Two site identities share a configuration key exactly when their texts are equal. */
  lemma ConfigKeyInjective(a: HostName, b: HostName)
    ensures ConfigKey(a) == ConfigKey(b) <==> a.AsText() == b.AsText()
  {
    if ConfigKey(a) == ConfigKey(b) {
      assert a.AsText() == ConfigKey(a)[..|ConfigKey(a)| - 7];
    }
  }

  /** A host whose identity label is literally "undefined" shares its key with an undefined identity. */
  lemma UndefinedKeyShared(host: string)
    requires host == "undefined.org"
    ensures GetHostName(Some(host)) == Name("undefined")
    ensures ConfigKey(GetHostName(Some(host))) == ConfigKey(Undefined)
  {
    NoWww("undefined");
    HostNameLabels("undefined", "org", "");
    assert "undefined" + "." + "org" + "" == host;
  }

  /** "www" occurs somewhere in `s`. */
  ghost predicate HasWww(s: string)
  {
    exists i :: OccursAt(s, "www", i)
  }

  /** Text without a `w` has no "www" in it. */
  lemma NoWww(s: string)
    requires 'w' !in s
    ensures !HasWww(s)
  {
    forall i
      ensures !OccursAt(s, "www", i)
    {
      if 0 <= i && i + 3 <= |s| {
        assert s[i..i + 3][0] == s[i];
      }
    }
  }

  /** A single-label host name is its own identity, unless it contains "www": then the second label is missing. */
  lemma HostNameSingleLabel(a: string)
    requires '.' !in a
    ensures GetHostName(Some(a)) == if HasWww(a) then Undefined else Name(a)
  {
    SplitWithout(a, '.');
  }

  /**
   * A host name with at least two labels: the identity is the first label,
   * or the second when the first contains "www" anywhere (so
   * "www.example.com" and "example.com" share one identity, and so do
   * "awwwards.com" and "com.org": both are "com").
   */
  lemma HostNameLabels(a: string, b: string, rest: string)
    requires '.' !in a && '.' !in b
    requires rest == [] || rest[0] == '.'
    ensures GetHostName(Some(a + "." + b + rest)) == if HasWww(a) then Name(b) else Name(a)
  {
    var host := a + "." + b + rest;
    assert host == a + ['.'] + (b + rest);
    SplitAfterPiece(a, '.', b + rest);
    if rest == [] {
      assert b + rest == b;
      SplitWithout(b, '.');
    } else {
      assert b + rest == b + ['.'] + rest[1..];
      SplitAfterPiece(b, '.', rest[1..]);
    }
  }

  /** "www" inside the first label also selects the second: "awwwards.com" and "com.org" both have the identity "com". */
  lemma WwwInsideLabel(a: string, b: string, c: string)
    requires a == "awwwards" && b == "com" && c == "org"
    ensures GetHostName(Some(a + "." + b)) == Name("com")
    ensures GetHostName(Some(b + "." + c)) == Name("com")
  {
    assert a[1..4] == "www";
    assert OccursAt(a, "www", 1);
    HostNameLabels(a, b, "");
    assert a + "." + b + "" == a + "." + b;
    HostNameLabels(b, c, "");
    assert b + "." + c + "" == b + "." + c;
  }

  /** A URL is refused before any table is searched for, for one of two reasons. */
  datatype UrlVerdict = LinkedInPage | BrowserPage | Supported

  /** The character class `[a-z]`. */
  predicate IsLowerLetter(ch: char)
  {
    'a' <= ch <= 'z'
  }

  /** `//[a-z]+\.linkedin\.com` matches `s` with "//" at `i` and the letters ending at `j`. */
  ghost predicate LinkedInMatchAt(s: string, i: int, j: int)
  {
    && OccursAt(s, "//", i)
    && i + 2 < j
    && OccursAt(s, ".linkedin.com", j)
    && (forall k :: i + 2 <= k < j ==> IsLowerLetter(s[k]))
  }

  /** The regular expression `//[a-z]+\.linkedin\.com` matches somewhere in `s`. */
  ghost predicate MatchesLinkedIn(s: string)
  {
    exists i, j :: LinkedInMatchAt(s, i, j)
  }

  /** The length of the run of `[a-z]` letters starting at `k`. */
  function LetterRun(s: string, k: nat): (n: nat)
    requires k <= |s|
    ensures k + n <= |s|
    ensures forall m :: k <= m < k + n ==> IsLowerLetter(s[m])
    ensures k + n == |s| || !IsLowerLetter(s[k + n])
    decreases |s| - k
  {
    if k < |s| && IsLowerLetter(s[k]) then 1 + LetterRun(s, k + 1) else 0
  }

  /** A run of letters from `k` that stops at a non-letter at `j` is the whole run of letters at `k`. */
  lemma {:induction false} RunEnd(s: string, k: nat, j: nat)
    requires k <= j < |s|
    requires forall m :: k <= m < j ==> IsLowerLetter(s[m])
    requires !IsLowerLetter(s[j])
    ensures LetterRun(s, k) == j - k
    decreases j - k
  {
    if k < j {
      RunEnd(s, k + 1, j);
    }
  }

  /** The regular-expression search from index `i` on: "//", then letters, then ".linkedin.com" right after them. */
  function LinkedInFrom(s: string, i: nat): bool
    decreases |s| - i
  {
    if i + 2 > |s| then false
    else
      LinkedInAt(s, i) || LinkedInFrom(s, i + 1)
  }

  /** The test the search makes at one start `i`. */
  predicate LinkedInAt(s: string, i: nat)
    requires i + 2 <= |s|
  {
    s[i..i + 2] == "//"
      && var n := LetterRun(s, i + 2);
         n > 0 && StartsWith(s[i + 2 + n..], ".linkedin.com")
  }

  /** When the test at one start succeeds, the regular expression matches there, with the letters ending where the run of letters ends. */
  lemma LinkedInAtSound(s: string, i: nat)
    requires i + 2 <= |s|
    requires LinkedInAt(s, i)
    ensures LinkedInMatchAt(s, i, i + 2 + LetterRun(s, i + 2))
  {
    var k := i + 2 + LetterRun(s, i + 2);
    assert s[k..][..13] == s[k..k + 13];
  }

  /** When the regular expression matches at one start, the test there succeeds: the letters can only end where the run of letters ends, since "." is not a letter. */
  lemma LinkedInAtComplete(s: string, i: nat, j: int)
    requires i + 2 <= |s|
    requires LinkedInMatchAt(s, i, j)
    ensures LinkedInAt(s, i)
  {
    assert s[j] == s[j..j + 13][0];
    RunEnd(s, i + 2, j);
    assert s[j..][..13] == s[j..j + 13];
  }

  /** The test at one start succeeds exactly when the regular expression matches there. */
  lemma LinkedInAtIff(s: string, i: nat)
    requires i + 2 <= |s|
    ensures LinkedInAt(s, i) <==> exists j :: LinkedInMatchAt(s, i, j)
  {
    if LinkedInAt(s, i) {
      LinkedInAtSound(s, i);
    }
    forall j | LinkedInMatchAt(s, i, j)
      ensures LinkedInAt(s, i)
    {
      LinkedInAtComplete(s, i, j);
    }
  }

  /** The search finds a match from `i` on exactly when the regular expression matches at some start at or after `i`. */
  lemma {:induction false} LinkedInFromIff(s: string, i: nat)
    ensures LinkedInFrom(s, i) <==> exists p, j :: i <= p && LinkedInMatchAt(s, p, j)
    decreases |s| - i
  {
    if i + 2 <= |s| {
      LinkedInFromIff(s, i + 1);
      LinkedInAtIff(s, i);
      assert LinkedInFrom(s, i) == (LinkedInAt(s, i) || LinkedInFrom(s, i + 1));
      forall p, j | i <= p && LinkedInMatchAt(s, p, j)
        ensures LinkedInAt(s, i) || LinkedInFrom(s, i + 1)
      {
        if p == i {
          assert exists j' :: LinkedInMatchAt(s, i, j');
        }
      }
    } else {
      forall p, j | i <= p
        ensures !LinkedInMatchAt(s, p, j)
      {
      }
    }
  }

  /** `url.toLowerCase().match(/\/\/[a-z]+\.linkedin\.com/)` is truthy. */
  function IsLinkedIn(url: string): (r: bool)
    ensures r <==> MatchesLinkedIn(ToLower(url))
  {
    LinkedInFromIff(ToLower(url), 0);
    LinkedInFrom(ToLower(url), 0)
  }

  /** A browser-internal page: the URL starts with `about:`, `moz-extension:`, `chrome:` or `chrome-extension:`. */
  predicate IsBrowserPage(url: string)
  {
    || StartsWith(url, "about:")
    || StartsWith(url, "moz-extension:")
    || StartsWith(url, "chrome:")
    || StartsWith(url, "chrome-extension:")
  }

  /** The checks at the start of `initializePopup`, in their order: LinkedIn first, then browser pages. */
  function Classify(url: string): (v: UrlVerdict)
    ensures v == LinkedInPage <==> MatchesLinkedIn(ToLower(url))
    ensures v == BrowserPage <==> !MatchesLinkedIn(ToLower(url)) && IsBrowserPage(url)
    ensures v == Supported <==> !MatchesLinkedIn(ToLower(url)) && !IsBrowserPage(url)
  {
    if IsLinkedIn(url) then LinkedInPage
    else if IsBrowserPage(url) then BrowserPage
    else Supported
  }

  /** `[A-Za-z]`. */
  predicate IsAsciiLetter(ch: char)
  {
    'a' <= ch <= 'z' || 'A' <= ch <= 'Z'
  }

  /**
   * A LinkedIn page is refused whatever the case of its URL: any URL with
   * "//", a non-empty run of ASCII letters of either case and then
   * ".linkedin.com" in any case (so also "https://WWW.LinkedIn.COM/feed").
   */
  lemma LinkedInAnyCase(scheme: string, sub: string, d: string, path: string)
    requires sub != [] && forall k :: 0 <= k < |sub| ==> IsAsciiLetter(sub[k])
    requires ToLower(d) == ".linkedin.com"
    ensures Classify(scheme + "//" + sub + d + path) == LinkedInPage
  {
    var url := scheme + "//" + sub + d + path;
    var lower := ToLower(url);
    var i := |scheme|;
    var j := i + 2 + |sub|;
    forall k | 0 <= k < 2
      ensures lower[i + k] == "//"[k]
    {
      assert url[i + k] == "//"[k];
    }
    OccursPointwise(lower, "//", i);
    forall k | i + 2 <= k < j
      ensures IsLowerLetter(lower[k])
    {
      assert url[k] == sub[k - i - 2];
    }
    var dl := ToLower(d);
    forall k | 0 <= k < |d|
      ensures lower[j + k] == dl[k]
    {
      assert url[j + k] == d[k];
    }
    OccursPointwise(lower, dl, j);
    assert LinkedInMatchAt(lower, i, j);
  }

  /** The LinkedIn test sees the URL lower-cased, so lower-casing the URL first changes nothing. */
  lemma LinkedInIgnoresCase(url: string)
    ensures IsLinkedIn(ToLower(url)) == IsLinkedIn(url)
  {
    ToLowerIdempotent(url);
  }

  /** A browser page is refused. */
  lemma BrowserPageExample(url: string)
    requires url == "about:addons"
    ensures Classify(url) == BrowserPage
  {
    assert StartsWith(url, "about:");
  }

}

=== FILE: text.dfy ===
/**
 * The JavaScript string operations the popup relies on, over `string` (`seq<char>`):
 * `split` on a one-character separator, `join`, `indexOf`, `startsWith` and
 * (ASCII) `toLowerCase`.
 */
module Text {

  /** `p` occurs in `s` starting at index `i`. */
  ghost predicate OccursAt(s: string, p: string, i: int)
  {
    0 <= i && i + |p| <= |s| && s[i..i + |p|] == p
  }

  /** `p` occurs at `i` when each of its characters is in place. */
  lemma OccursPointwise(s: string, p: string, i: nat)
    requires i + |p| <= |s|
    requires forall k :: 0 <= k < |p| ==> s[i + k] == p[k]
    ensures OccursAt(s, p, i)
  {
    assert s[i..i + |p|] == p;
  }

  /** `s.startsWith(p)`. */
  predicate StartsWith(s: string, p: string)
  {
    |p| <= |s| && s[..|p|] == p
  }

  /** `s` starts with `p` exactly when `s` is `p` followed by some text. */
  lemma StartsWithIff(s: string, p: string)
    ensures StartsWith(s, p) <==> exists t :: p + t == s
  {
    if StartsWith(s, p) {
      assert p + s[|p|..] == s;
    } else {
      forall t
        ensures p + t != s
      {
        if |p| <= |s| {
          assert (p + t)[..|p|] == p;
        }
      }
    }
  }

  /** `s.indexOf(p, from)`: the first index at or after `from` where `p` occurs, or -1. */
  function IndexFrom(s: string, p: string, from: nat): (r: int)
    ensures r == -1 || (from <= r && OccursAt(s, p, r))
    ensures forall i :: from <= i && (r == -1 || i < r) ==> !OccursAt(s, p, i)
    decreases |s| - from
  {
    if from + |p| > |s| then -1
    else if s[from..from + |p|] == p then from
    else IndexFrom(s, p, from + 1)
  }

  /** `s.indexOf(p)`: the first index where `p` occurs in `s`, or -1 when it does not occur. */
  function IndexOf(s: string, p: string): (r: int)
    ensures r == -1 <==> forall i :: !OccursAt(s, p, i)
    ensures r != -1 ==> OccursAt(s, p, r) && forall i :: 0 <= i < r ==> !OccursAt(s, p, i)
  {
    IndexFrom(s, p, 0)
  }

  /** `parts.join(sep)`. */
  function Join(parts: seq<string>, sep: string): string
    decreases |parts|
  {
    if |parts| == 0 then ""
    else if |parts| == 1 then parts[0]
    else parts[0] + sep + Join(parts[1..], sep)
  }

  /** A join of two or more parts is the first part, the separator, then the join of the others. */
  lemma JoinCons(parts: seq<string>, sep: string)
    requires |parts| >= 2
    ensures Join(parts, sep) == parts[0] + (sep + Join(parts[1..], sep))
  {
  }

  /** `s.split(c)` for a one-character separator: the (possibly empty) pieces between separators. */
  function Split(s: string, c: char): (parts: seq<string>)
    ensures |parts| >= 1
    ensures forall i :: 0 <= i < |parts| ==> c !in parts[i]
    decreases |s|
  {
    if s == [] then [""]
    else
      var rest := Split(s[1..], c);
      if s[0] == c then [""] + rest
      else [[s[0]] + rest[0]] + rest[1..]
  }

  /** An ASCII upper-case letter. */
  predicate IsUpper(ch: char)
  {
    'A' <= ch <= 'Z'
  }

  /** ASCII `toLowerCase` of one character. */
  function LowerChar(ch: char): char
  {
    if IsUpper(ch) then (ch as int + 32) as char else ch
  }

  /**
   * `s.toLowerCase()`, for ASCII letters: no upper-case letter is left, every
   * other character stays as it is, and each upper-case letter becomes its
   * lower-case partner.
   */
  function ToLower(s: string): (r: string)
    ensures |r| == |s|
    ensures forall i :: 0 <= i < |r| ==> !IsUpper(r[i])
    ensures forall i :: 0 <= i < |s| && !IsUpper(s[i]) ==> r[i] == s[i]
    ensures forall i :: 0 <= i < |s| && IsUpper(s[i]) ==> 'a' <= r[i] <= 'z' && r[i] as int == s[i] as int + 32
  {
    seq(|s|, i requires 0 <= i < |s| => LowerChar(s[i]))
  }

  /** Text without upper-case letters is its own lower case. */
  lemma ToLowerUnchanged(s: string)
    requires forall i :: 0 <= i < |s| ==> !IsUpper(s[i])
    ensures ToLower(s) == s
  {
  }

  /** Lower-casing twice is lower-casing once. */
  lemma ToLowerIdempotent(s: string)
    ensures ToLower(ToLower(s)) == ToLower(s)
  {
    ToLowerUnchanged(ToLower(s));
  }

  /** Splitting yields, first, the longest prefix free of `c`; if a separator follows it, the rest is the split of what comes after that separator. */
  lemma {:induction false} SplitFirst(s: string, c: char)
    ensures var parts := Split(s, c);
      && parts[0] <= s
      && (|parts| == 1 <==> parts[0] == s)
      && (|parts| > 1 ==> s[|parts[0]|] == c && parts[1..] == Split(s[|parts[0]| + 1..], c))
  {
    if s != [] {
      SplitFirst(s[1..], c);
      var rest := Split(s[1..], c);
      if s[0] != c {
        assert Split(s, c)[1..] == rest[1..];
        if |rest| > 1 {
          assert s[|Split(s, c)[0]| + 1..] == s[1..][|rest[0]| + 1..];
        }
      }
    }
  }

  /** Text with no `c` in it is a single piece. */
  lemma {:induction false} SplitWithout(s: string, c: char)
    requires c !in s
    ensures Split(s, c) == [s]
  {
    SplitFirst(s, c);
  }

  /** Splitting a piece free of `c` followed by `c` and more text gives that piece, then the split of the rest. */
  lemma {:induction false} SplitAfterPiece(x: string, c: char, t: string)
    requires c !in x
    ensures Split(x + [c] + t, c) == [x] + Split(t, c)
  {
    var s := x + [c] + t;
    if x == [] {
      assert s[1..] == t;
    } else {
      SplitAfterPiece(x[1..], c, t);
      assert s[1..] == x[1..] + [c] + t;
      assert [x[0]] + x[1..] == x;
    }
  }

  /** `split` undoes `join` when no piece contains the separator. */
  lemma {:induction false} SplitJoin(parts: seq<string>, c: char)
    requires |parts| >= 1
    requires forall i :: 0 <= i < |parts| ==> c !in parts[i]
    ensures Split(Join(parts, [c]), c) == parts
  {
    if |parts| == 1 {
      SplitWithout(parts[0], c);
    } else {
      SplitJoin(parts[1..], c);
      assert Join(parts, [c]) == parts[0] + [c] + Join(parts[1..], [c]);
      SplitAfterPiece(parts[0], c, Join(parts[1..], [c]));
      assert parts == [parts[0]] + parts[1..];
    }
  }

  /** `join` undoes `split`. */
  lemma {:induction false} JoinSplit(s: string, c: char)
    ensures Join(Split(s, c), [c]) == s
  {
    if s != [] {
      JoinSplit(s[1..], c);
      var rest := Split(s[1..], c);
      if s[0] == c {
        assert Split(s, c) == [""] + rest;
        assert ([""] + rest)[1..] == rest;
      } else {
        var parts := Split(s, c);
        if |rest| > 1 {
          assert parts[1..] == rest[1..];
          assert Join(parts, [c]) == [s[0]] + (rest[0] + [c] + Join(rest[1..], [c]));
        }
      }
    }
  }

  /** A character absent from the pieces and from the separator is absent from the joined text. */
  lemma {:induction false} JoinAvoids(parts: seq<string>, sep: string, c: char)
    requires c !in sep
    requires forall i :: 0 <= i < |parts| ==> c !in parts[i]
    ensures c !in Join(parts, sep)
  {
    if |parts| > 1 {
      JoinAvoids(parts[1..], sep, c);
    }
  }
}

=== FILE: wrappers.dfy ===
/** Optional values: a result that may be absent (JavaScript `null`, a failed parse). */
module Wrappers {

  datatype Option<+T> = None | Some(value: T)

}
